=== FILE: README.md ===
# Waterfall layout engine and load controller, in Dafny

This project models `src/jquery.waterfall.js`, a masonry ("waterfall") layout for equal-width items. It has three parts:

- **Column count.** The number of columns is resolved from the window width. It is `floor((W + gapWidth) / (colWidth + gapWidth))`, raised to `minCol` and, when `maxCol` is truthy, lowered to `maxCol`. Construction fails when the `container` option is falsy, or when `maxCol` is truthy and `minCol > maxCol`.
- **Layout engine.** An array `colHeightArr` holds one height per column. Each item goes to the first column of least height, at `(column * (colWidth + gapWidth), height of that column)`. That column then grows by `gapHeight + item height`. Positions are queued in `styleQueue` and applied after all items are placed. The container's height becomes the largest column height.
- **Load controller.** The state is one of `ready | rendering | loading | end`. A scroll-triggered attempt (`_load`) starts a load only from `ready`, and only when `viewportHeight + preDistance >= containerTop + containerHeight`. `success` and `addItem` always end in `ready`, and `end` sets `end`.

The files:

- `config.dfy` (module `Config`): the options, the construction check `Check`, and the resolver `ColCount`, with lemmas that the resolved count stays within the bounds and fills the window.
- `columns.dfy` (module `Columns`): the layout engine as functions on values (`MinIndex`, `MaxHeight`, `Place`, `PlaceAll`, `ApplyStyles`) and the lemmas about them: first-minimum choice, input order, conservation of total height, balance, last-write-wins flushing.
- `loadcontrol.dfy` (module `LoadControl`): the four states, the transition function `Next` and runs of operations, with lemmas on when loads start and when `end` is terminal.
- `waterfall.dfy` (module `Waterfall`): the `Waterfall` object as a class. Its fields (`colCount`, the array `colHeightArr`, `styleQueue`, `state`, the container's `children`) are updated in place by methods that are proved against the functions above. What the object does to the page is kept in ghost fields: the position applied to each element, the container's width and height, and the `ready` class.

Modelling choices:

- `hasContainer` is the truthiness of the `container` option, which is tested at line 112. A truthy container is taken to hold an element (see "## Left out").
- `maxCol` is an integer, and `Bounded` is its truthiness as lines 116 and 162 test it. `0` stands for every falsy value of the option (null, undefined, 0, false). The source only tests the option's truthiness and then compares its number, so `0` behaves exactly like each of them.
- Measurements of the page are parameters: the window's width and height, the container's top and measured height, the body's height, and each item's outer height (carried by `Item.height`).
- An element is an `Item` value. Its identity is the value itself.
- `layout`'s second loop (applying the queued styles) is the method `FlushStyleQueue`. `success`'s loop over its array is the method `AddEach`, and the callback it passes to `$.each` is `EachItem`. Each is called where the source has that code.
- `container.append` moves an element that is already in the container to the end, and adds any other element at the end (`Appended`).
- A configuration that passes the construction check must also be `Admissible`, because the model's column count is an integer. The column pitch `colWidth + gapWidth` must not be 0, since JavaScript's division by zero gives an infinity or NaN (see "## Left out"). `minCol` must be at least 1: the option's documentation (line 20) warns that values such as 0 and -1 are not validated and must be constrained by the caller. A configuration the check rejects needs neither condition, since the source throws before any arithmetic. A negative pitch is modelled. `Math.floor` of the quotient is `FloorDiv`, because Dafny's `/` rounds up for a negative divisor. The fit lemmas `RawColCountFits` and `ColCountFits` are stated for a positive pitch only.

## Model

| member | source | states |
|---|---|---|
| `Config.ColCount` | src/jquery.waterfall.js:155-166 | the count never exceeds a truthy `maxCol`. It is at least `minCol` whenever the bounds are consistent, and exactly `minCol` when the raw count is below it. It equals the raw count when that lies within the bounds; otherwise it is the bound it was clamped to |
| `Config.Defaults` | src/jquery.waterfall.js:36-51 | the default bounds (1 to 10 columns) pass the construction check and cap the count; with the default 15 px gap every column width except -15 gives a usable pitch |
| `Config.Check` | src/jquery.waterfall.js:112-120 | the check passes if and only if the `container` option is truthy and a truthy `maxCol` is not below `minCol`; with a truthy container, any failure is the bounds error, and it is reported only then |
| `Config.FloorDiv` | src/jquery.waterfall.js:157-158 | the quotient is `Math.floor` of the division for either sign of divisor: it is the `q` with `q*d <= a < q*d + d` for a positive `d`, and the mirror image for a negative one |
| `Config.RawColCount` | src/jquery.waterfall.js:157-158 | for a positive pitch, the raw count is the `n` with `n` pitches at most `W + gapWidth` and `n + 1` pitches more |
| `Config.ContainerWidth` | src/jquery.waterfall.js:180 | the container width is `n` column pitches less the gap after the last column |
| `Config.RawColCountFits` | src/jquery.waterfall.js:157-158 | the raw count is the largest number of columns whose container width `n*colWidth + (n-1)*gapWidth` fits in the window: one more column would not fit |
| `Config.ColCountFits` | src/jquery.waterfall.js:155-166 | the container for the resolved count fits in the window unless `minCol` forced it wider, and no further column would fit unless `maxCol` capped the count |
| `Config.ColCountExamples` | src/jquery.waterfall.js:112-120 | `minCol = maxCol = 2` with room for five columns gives 2; `minCol = 5, maxCol = 2` fails with the bounds error; a falsy container fails first; the defaults pass; a negative pitch (`colWidth` 10, `gapWidth` -20) floors the raw count to -8, which `minCol` raises to 1 |
| `Columns.Zeros` | src/jquery.waterfall.js:189-195 | the reset column heights: exactly `n` entries, all 0 |
| `Columns.MinIndex` | src/jquery.waterfall.js:274-285 | 0 for an empty array, otherwise an index within the array |
| `Columns.MinIndexIsFirstMin` | src/jquery.waterfall.js:274-285 | the scan returns a column whose height is at most every other, and every column before it is strictly higher (ties go to the lowest index) |
| `Columns.MinIndexUnique` | src/jquery.waterfall.js:274-285 | an index is the first column of minimum height if and only if it is the scan's result |
| `Columns.MaxHeight` | src/jquery.waterfall.js:291-302 | the result is never negative, since the scan starts from 0 |
| `Columns.MaxHeightIsMax` | src/jquery.waterfall.js:291-302 | the result is at least every column height, and it is one of them unless it is the starting 0 |
| `Columns.MaxHeightIsEntry` | src/jquery.waterfall.js:291-302 | when some column height is not negative, the result is one of the column heights |
| `Columns.Place` | src/jquery.waterfall.js:255-268 | placing one item keeps the number of columns and chooses an existing column |
| `Columns.PlaceEffect` | src/jquery.waterfall.js:255-268 | the item goes to the first column of minimum height, at left `column*(colWidth+gapWidth)` and top the column's old height; that column grows by `gapHeight + height`; every other column is unchanged |
| `Columns.PlaceAll` | src/jquery.waterfall.js:207-213 | placing a batch keeps the number of columns and queues exactly one entry per item |
| `Columns.PlaceAllEmpty` | src/jquery.waterfall.js:207-213 | an empty batch leaves the columns unchanged and queues nothing |
| `Columns.PlaceAllQueueOrder` | src/jquery.waterfall.js:211-213 | entry `k` of the queue is for item `k`: the queue follows input order |
| `Columns.PlaceAllInOrder` | src/jquery.waterfall.js:211-213 | item `k` is placed exactly as if alone on the column heights that items `0..k-1` left |
| `Columns.PlaceAllAppend` | src/jquery.waterfall.js:433-441 | placing items in two consecutive batches gives the same heights and the same queue as placing them in one batch, so `success`'s item-by-item `addItem` calls equal one `layout` of the whole array |
| `Columns.PlaceAllTotal` | src/jquery.waterfall.js:265 | the total of the column heights grows by exactly `gapHeight + height` per item placed |
| `Columns.PlaceAllGrows` | src/jquery.waterfall.js:265 | with a non-negative vertical gap no column ever gets shorter |
| `Columns.PlaceAllBalanced` | src/jquery.waterfall.js:255-268 | if every increment lies in `[0, B]` and the columns start within `B` of each other, they stay within `B` of each other |
| `Columns.FreshLayoutBalanced` | src/jquery.waterfall.js:360-365 | after a reset and relayout, the highest column is at most one gap plus the tallest item above the lowest |
| `Columns.ApplyStyles` | src/jquery.waterfall.js:217-220 | flushing never removes a position, and the last queued entry's element ends at that entry's position |
| `Columns.ApplyStylesFrame` | src/jquery.waterfall.js:217-220 | flushing gives a position to exactly the queued elements, and leaves every other element's position as it was |
| `Columns.ApplyStylesLastWins` | src/jquery.waterfall.js:217-220 | an element ends at the position of its last queued entry |
| `Columns.ApplyStylesAppend` | src/jquery.waterfall.js:217-222 | flushing two queues one after the other equals flushing their concatenation |
| `Columns.ThreeColumnExample` | src/jquery.waterfall.js:255-268 | three 200 px columns with 15 px gaps: heights 100, 50, 80 go to columns 0, 1, 2 at top 0; the columns become 115, 65, 95; a next item of height 10 goes to column 1 at top 65 |
| `LoadControl.NearBottom` | src/jquery.waterfall.js:388 | the test holds exactly when the container's bottom is at most `preDistance` pixels below the viewport's bottom |
| `LoadControl.Next` | src/jquery.waterfall.js:235-453 | an operation ends in `loading` exactly for `doLoad`, a permitted attempt, or an attempt or relayout while `loading`; it ends in `end` exactly for `end`, or an attempt or relayout while `end`; `rendering` survives only attempts and relayouts |
| `LoadControl.TryLoadGuard` | src/jquery.waterfall.js:388-390 | an attempt changes the state if and only if the state is `ready` and the bottom is near, and then the state becomes `loading` |
| `LoadControl.UnconditionalTransitions` | src/jquery.waterfall.js:399-453 | from any state, `success` and `addItem` give `ready`, `doLoad` gives `loading`, and `end` gives `end` |
| `LoadControl.LoadBeginsOnlyWhenPermitted` | src/jquery.waterfall.js:380-410 | the state becomes `loading` only through `doLoad`, or through an attempt from `ready` with the bottom near |
| `LoadControl.EndIsTerminal` | src/jquery.waterfall.js:449-453 | from `end`, any run of load attempts, relayouts and `end` calls stays in `end` |
| `LoadControl.EndReopenedBySuccess` | src/jquery.waterfall.js:433-441 | `end` is not terminal once `success` is called: `success` then a near-bottom attempt gives `loading` |
| `LoadControl.LoadingHeldUntilLoaderReturns` | src/jquery.waterfall.js:399-410 | from `loading`, any run of attempts, relayouts and `doLoad` calls stays in `loading` |
| `LoadControl.AttemptsStartOneLoad` | src/jquery.waterfall.js:380-391 | from `ready`, a run of attempts ends in `loading` if and only if some attempt found the bottom near, and otherwise stays `ready` |
| `LoadControl.FirstLoadRound` | src/jquery.waterfall.js:417-421 | one round of `_firstLoad`'s loop as written: the state changes if and only if it is `ready`, the window is at least as tall as the body and the bottom is near, and then it becomes `loading` |
| `LoadControl.FirstLoadRounds` | src/jquery.waterfall.js:418-420 | the loop as written, for `n` rounds: the state changes only from `ready`, with the window at least as tall as the body and the bottom near, and then it is `loading` |
| `LoadControl.FirstLoadRoundsSettle` | src/jquery.waterfall.js:417-421 | with fixed measurements, any number of rounds (at least one) leaves the state that the first round left |
| `LoadControl.FirstLoadNeverExits` | src/jquery.waterfall.js:417-421 | from `ready`, with the window at least as tall as the body and the bottom not near, the state is still `ready` after any number of rounds, so the loop's guard never fails |
| `Columns.Without` | src/jquery.waterfall.js:239 | removing an element never lengthens the children |
| `Columns.WithoutElems` | src/jquery.waterfall.js:239 | removing `x` keeps exactly the children other than `x`, and `x` is gone |
| `Columns.WithoutAbsent` | src/jquery.waterfall.js:239 | removing an element that is not a child changes nothing |
| `Columns.WithoutDistinct` | src/jquery.waterfall.js:239 | removing an element keeps distinct children distinct |
| `Columns.Appended` | src/jquery.waterfall.js:239 | `append` leaves the element as the last child |
| `Columns.AppendedMoves` | src/jquery.waterfall.js:239 | after `append`, the element occurs nowhere but at the end, and the children are the old ones and the element |
| `Columns.AppendedNew` | src/jquery.waterfall.js:239 | appending an element that is not yet a child adds it at the end |
| `Columns.AppendedDistinct` | src/jquery.waterfall.js:239 | appending keeps distinct children distinct |
| `Columns.AppendAll` | src/jquery.waterfall.js:435-439 | after `success`'s array is appended, the array's last element is the last child |
| `Columns.AppendAllEffect` | src/jquery.waterfall.js:435-439 | after appending a batch, the children are the old ones and the batch's |
| `Columns.AppendAllDistinct` | src/jquery.waterfall.js:435-439 | appending a batch keeps distinct children distinct |
| `Columns.AppendAllNew` | src/jquery.waterfall.js:435-439 | when the children and the batch together have no repeats, the batch is added at the end in order |
| `Waterfall.Create` | src/jquery.waterfall.js:109-146 | for every configuration, construction fails if and only if the `container` option is falsy or a truthy `maxCol` is below `minCol`, and a falsy container is reported first. On success the object is new with a new column array, valid, and has the resolved column count, zeroed columns, the container width for that count, its container's children (no element twice, as in a DOM) and the scroll handler bound. Its state is the one the first loads leave |
| `Waterfall.Waterfall.constructor` | src/jquery.waterfall.js:109-146 | after the checks pass: resolved column count, zeroed columns, container width for that count, empty queue, the container's distinct children, scroll handler bound. Validity keeps the children distinct through every later operation. The state is the one a single round of `_firstLoad` leaves: `loading` if the window is at least as tall as the body and the bottom is near, else `ready` |
| `Waterfall.Waterfall.ResetColCount` | src/jquery.waterfall.js:155-166 | the stored column count is `ColCount` of the options and window width |
| `Waterfall.Waterfall.ResetWidth` | src/jquery.waterfall.js:177-181 | the container width becomes `colCount*colWidth + (colCount-1)*gapWidth` |
| `Waterfall.Waterfall.ResetColHeightArr` | src/jquery.waterfall.js:189-195 | a fresh array with exactly `colCount` entries, all 0, after resolving the count |
| `Waterfall.Waterfall.GetMinHIndex` | src/jquery.waterfall.js:274-285 | returns the first column of minimum height, and 0 when there are no columns |
| `Waterfall.Waterfall.GetMaxHeight` | src/jquery.waterfall.js:291-302 | returns the maximum of 0 and the column heights |
| `Waterfall.Waterfall.PlaceItem` | src/jquery.waterfall.js:255-268 | the columns become those of `Place` on the old columns, and exactly that placement is appended to the queue |
| `Waterfall.Waterfall.Layout` | src/jquery.waterfall.js:207-223 | the columns become those of placing the items in order; the container height is the maximum column height; the queued positions are applied in order and the queue is left empty; the number of columns is unchanged |
| `Waterfall.Waterfall.FlushStyleQueue` | src/jquery.waterfall.js:217-222 | the queued positions are applied in queue order, and the queue becomes empty |
| `Waterfall.Waterfall.AddItem` | src/jquery.waterfall.js:235-243 | the element is appended to the container, moving it to the end if it is already a child; it is laid out alone and marked `ready`; the state ends `ready` |
| `Waterfall.Waterfall.DoResize` | src/jquery.waterfall.js:360-365 | the count is resolved for the new width, the columns are fresh and zeroed, the container width is reset, and every child is laid out again from the top |
| `Waterfall.Waterfall.Load` | src/jquery.waterfall.js:380-391 | the state moves as an attempt with the bottom-proximity test on the given measurements |
| `Waterfall.Waterfall.DoLoad` | src/jquery.waterfall.js:399-410 | the state becomes `loading` from any state |
| `Waterfall.Waterfall.OnScroll` | src/jquery.waterfall.js:329 | while bound, a scroll is a load attempt; after `end` has unbound it, a scroll changes nothing |
| `Waterfall.Waterfall.FirstLoad` | src/jquery.waterfall.js:417-421 | the corrected loop ends, in the state one round of the loop as written leaves: one load if the window is at least as tall as the body and the bottom is near, otherwise nothing |
| `Waterfall.Waterfall.Success` | src/jquery.waterfall.js:433-441 | the array's items are added in order (nothing for a non-array). The children are those `append` leaves for each item in turn. The columns, positions and `ready` marks are those of placing the items as one batch. The state ends `ready` in every case |
| `Waterfall.Waterfall.AddEach` | src/jquery.waterfall.js:435-439 | `addItem` for each item in order gives the same columns and positions as one batch of all of them, and the children of appending each in turn |
| `Waterfall.Waterfall.EachItem` | src/jquery.waterfall.js:436-438 | the callback for item `i`, after items `0..i-1`: the children, columns, positions and `ready` marks become those of items `0..i`, and the state is `ready` |
| `Waterfall.Waterfall.End` | src/jquery.waterfall.js:449-453 | the state becomes `end` and the scroll handler is unbound |

## Left out

- `Waterfall.Create`: a truthy container that holds no element (an empty selection such as `$('#missing')`) passes the check at line 112, and the source then throws a TypeError at line 180 (`op.container[0].style`). The model assumes that a truthy container holds an element, so it returns `Ok` there. The DOM element itself is not modelled.

- DOM and jQuery effects (`css`, `append`, `addClass`, `style.width`, `children()`) are not performed. The model keeps their results in ghost fields: positions, container width and height, `ready` marks. The container's children are a sequence.
- Geometry measurement (`outerHeight`, `$window.width()` and `height()`, `getBoundingClientRect`, `$body.outerHeight()`) is replaced by integer parameters. Fractional pixel values are not modelled.
- An item's height is taken as fixed. The source measures it again on every `layout`; the model assumes the same value each time.
- Timers are not modelled: the `_resize` debounce, the 300 ms delayed `_load` at the end of `doResize`, and the `loadDelay` before the loader is called. `DoLoad` only sets `loading`. The load attempt after a resize is a later `Load` call.
- The user callbacks `load`, `oninit`, `onbeforeLoad` and `onresize` are foreign code and are not called.
- Event binding (`_bind`, the IE 8 resize shim, `$.proxy`) is left out. The scroll binding is only the flag `scrollBound`, which `End` clears. The window's shared event registry is not modelled, so neither is what `unbind` does to other instances' handlers.
- `_firstLoad`'s loop as written does not always end (see Findings). The loader runs after a timer and `doLoad` sets `loading` at once. So the loop makes no round when the state is not `ready` or the window is shorter than the body. It stops after one round when that round starts a load, and otherwise it never stops. The model uses the corrected `FirstLoad`, which stops once an attempt is refused.
- `Admissible`: a zero column pitch is not modelled, because the count would not be an integer. In the source, the division then gives `+Infinity`, `-Infinity` or NaN:
  - `+Infinity` with a truthy `maxCol` is lowered to `maxCol`, and every column sits at left 0.
  - `-Infinity` (when `W + gapWidth < 0`) is raised to `minCol`.
  - NaN (when `W + gapWidth == 0`) passes both clamps, which leaves an empty column array and a NaN width.
  - Unbounded `+Infinity` makes the loop at line 192 run forever.
- `Admissible`: `minCol < 1` is not modelled either. It changes nothing while the raw count is at least 1. Below that, it leaves no columns, and `_placeItem` then reads an `undefined` height.
- `docs/api.js` is generated documentation metadata with no logic.
- The source assigns `l` in `layout` and `pos` in `_placeItem` without `var`, so both are implicit globals. This has no effect on the single-threaded behaviour modelled here.

## Findings

| source | as written | input that shows it | evidently intended | confidence | as-written member | corrected member |
|---|---|---|---|---|---|---|
| src/jquery.waterfall.js:417-421 | `_firstLoad` repeats `_load` while the state is `ready` and the window is at least as tall as the body. A refused attempt changes neither, and no loader runs inside the loop, so the loop never exits and construction hangs | `preDistance` -20; window and body both 800 px high; container top 0 and height 800 (800 - 20 < 800, so every attempt is refused) | try to load while the page has no scrollbar, and stop once an attempt is refused: at most one load, always returning | medium, not executed | `LoadControl.FirstLoadNeverExits` | `Waterfall.Waterfall.FirstLoad` |

=== FILE: columns.dfy ===
/** The layout engine as functions on values: the column heights are a sequence,
    the style queue a sequence of placements. The class in waterfall.dfy is proved
    against these definitions (src/jquery.waterfall.js, `getMinHIndex`,
    `getMaxHeight`, `_placeItem`, `layout`). */
module Columns {
  import opened Config

  /** An element of the container, identified by `id`; `height` is its outer
      height as measured once it is in the container. */
  datatype Item = Item(id: nat, height: nat)

  /** An absolute position, in pixels, relative to the container. */
  datatype Pos = Pos(left: int, top: int)

  /** One entry of the style queue: an element and the position computed for it. */
  datatype Placement = Placement(item: Item, pos: Pos)

  /** The effect of placing one item: the column chosen, the new column heights
      and the entry queued for the item. */
  datatype Step = Step(column: nat, cols: seq<int>, placed: Placement)

  /** The effect of placing a batch: the new column heights and the entries
      queued, in order. */
  datatype Batch = Batch(cols: seq<int>, queue: seq<Placement>)

  /** A prefix one longer is the prefix and the next element. */
  lemma PrefixSnoc<T>(s: seq<T>, i: int)
    requires 0 <= i < |s|
    ensures s[..i + 1] == s[..i] + [s[i]]
  {
  }

  /** The column heights right after a reset: one zero per column. */
  function Zeros(n: nat): (z: seq<int>)
    ensures |z| == n && forall i :: 0 <= i < n ==> z[i] == 0
  {
    seq(n, _ => 0)
  }

  /** `i` is a column of least height, and every column before it is strictly
      higher: the first column of minimum height. */
  ghost predicate IsFirstMin(s: seq<int>, i: int) {
    0 <= i < |s| &&
    (forall j :: 0 <= j < |s| ==> s[i] <= s[j]) &&
    (forall j :: 0 <= j < i ==> s[i] < s[j])
  }

  /** The index `getMinHIndex` returns: a left-to-right scan that moves only on a
      strictly smaller height, so ties go to the lowest index; 0 for no column. */
  function MinIndex(s: seq<int>): (i: nat)
    ensures |s| == 0 ==> i == 0
    ensures |s| > 0 ==> i < |s|
    decreases |s|
  {
    if |s| <= 1 then 0
    else
      var k := MinIndex(s[..|s| - 1]);
      if s[|s| - 1] < s[k] then |s| - 1 else k
  }

  /** The scan finds the first column of minimum height. */
  lemma {:induction false} MinIndexIsFirstMin(s: seq<int>)
    requires |s| > 0
    ensures IsFirstMin(s, MinIndex(s))
    decreases |s|
  {
    if |s| > 1 {
      var front := s[..|s| - 1];
      MinIndexIsFirstMin(front);
      assert forall j :: 0 <= j < |front| ==> front[j] == s[j];
    }
  }

  /** The first column of minimum height is unique, so `MinIndex` is the only
      index that qualifies. */
  lemma MinIndexUnique(s: seq<int>, i: int)
    ensures IsFirstMin(s, i) <==> |s| > 0 && i == MinIndex(s)
  {
    if |s| > 0 {
      MinIndexIsFirstMin(s);
    }
    if IsFirstMin(s, i) {
      var k := MinIndex(s);
      assert !(i < k) && !(k < i);
    }
  }

  /** The value `getMaxHeight` returns: a scan from a maximum of 0. */
  function MaxHeight(s: seq<int>): (m: int)
    ensures m >= 0
    decreases |s|
  {
    if |s| == 0 then 0
    else
      var m0 := MaxHeight(s[..|s| - 1]);
      if m0 < s[|s| - 1] then s[|s| - 1] else m0
  }

  /** The scan's result is at least every entry, and is an entry unless it is
      the starting 0. */
  lemma {:induction false} MaxHeightIsMax(s: seq<int>)
    ensures forall j :: 0 <= j < |s| ==> s[j] <= MaxHeight(s)
    ensures MaxHeight(s) == 0 || MaxHeight(s) in s
    decreases |s|
  {
    if |s| > 0 {
      var front := s[..|s| - 1];
      MaxHeightIsMax(front);
      assert forall j :: 0 <= j < |front| ==> front[j] == s[j];
      assert MaxHeight(front) in front ==> MaxHeight(front) in s;
    }
  }

  /** The maximum is an entry whenever some entry is not negative, so the
      container is exactly as high as its highest column. */
  lemma MaxHeightIsEntry(s: seq<int>, k: int)
    requires 0 <= k < |s| && s[k] >= 0
    ensures MaxHeight(s) in s
  {
    MaxHeightIsMax(s);
  }

  /** `_placeItem`: the item goes to the first column of minimum height, at that
      column's current height and at the column's left offset; that column grows
      by the vertical gap plus the item's height, and no other column changes. */
  function Place(cols: seq<int>, item: Item, o: Options): (r: Step)
    requires |cols| >= 1
    ensures |r.cols| == |cols| && r.column < |cols|
  {
    var k := MinIndex(cols);
    Step(k, cols[k := cols[k] + o.gapHeight + item.height],
         Placement(item, Pos(k * (o.colWidth + o.gapWidth), cols[k])))
  }

  /** What placing one item does, column by column. */
  lemma PlaceEffect(cols: seq<int>, item: Item, o: Options)
    requires |cols| >= 1
    ensures var r := Place(cols, item, o);
            IsFirstMin(cols, r.column) &&
            r.placed == Placement(item, Pos(r.column * (o.colWidth + o.gapWidth), cols[r.column])) &&
            r.cols[r.column] == cols[r.column] + o.gapHeight + item.height &&
            forall j :: 0 <= j < |cols| && j != r.column ==> r.cols[j] == cols[j]
  {
    MinIndexIsFirstMin(cols);
  }

  /** The placing loop of `layout`: the items are placed in input order, each on
      the column heights the previous ones left. */
  function PlaceAll(cols: seq<int>, items: seq<Item>, o: Options): (r: Batch)
    requires |cols| >= 1
    ensures |r.cols| == |cols| && |r.queue| == |items|
    decreases |items|
  {
    if items == [] then Batch(cols, [])
    else
      var b := PlaceAll(cols, items[..|items| - 1], o);
      var s := Place(b.cols, items[|items| - 1], o);
      Batch(s.cols, b.queue + [s.placed])
  }

  /** One more item: it is placed on the heights the batch before it left. */
  lemma PlaceAllSnoc(cols: seq<int>, items: seq<Item>, x: Item, o: Options)
    requires |cols| >= 1
    ensures var b := PlaceAll(cols, items, o);
            var s := Place(b.cols, x, o);
            PlaceAll(cols, items + [x], o) == Batch(s.cols, b.queue + [s.placed])
  {
    assert (items + [x])[..|items|] == items;
  }

  /** An empty batch changes nothing. */
  lemma PlaceAllEmpty(cols: seq<int>, o: Options)
    requires |cols| >= 1
    ensures PlaceAll(cols, [], o) == Batch(cols, [])
  {
  }

  /** A batch of one item is that item's placement. */
  lemma PlaceAllSingle(cols: seq<int>, x: Item, o: Options)
    requires |cols| >= 1
    ensures var s := Place(cols, x, o);
            PlaceAll(cols, [x], o) == Batch(s.cols, [s.placed])
  {
    assert [x][..0] == [];
  }

  /** The queue holds one entry per item, in input order. */
  lemma {:induction false} PlaceAllQueueOrder(cols: seq<int>, items: seq<Item>, o: Options)
    requires |cols| >= 1
    ensures forall k :: 0 <= k < |items| ==> PlaceAll(cols, items, o).queue[k].item == items[k]
    decreases |items|
  {
    if items != [] {
      PlaceAllQueueOrder(cols, items[..|items| - 1], o);
    }
  }

  /** Item `k` of a batch is placed exactly as if it were placed alone on the
      column heights that items `0..k-1` left. */
  lemma {:induction false} PlaceAllInOrder(cols: seq<int>, items: seq<Item>, o: Options, k: int)
    requires |cols| >= 1 && 0 <= k < |items|
    ensures PlaceAll(cols, items, o).queue[k] == Place(PlaceAll(cols, items[..k], o).cols, items[k], o).placed
    decreases |items|
  {
    var n := |items|;
    var front := items[..n - 1];
    if k == n - 1 {
      assert front == items[..k];
    } else {
      PlaceAllInOrder(cols, front, o, k);
      assert front[..k] == items[..k];
      assert front[k] == items[k];
    }
  }

  /** Placing a batch in two parts is placing it at once: the second part starts
      from the heights the first left, and the queues are concatenated. */
  lemma {:induction false} PlaceAllAppend(cols: seq<int>, xs: seq<Item>, ys: seq<Item>, o: Options)
    requires |cols| >= 1
    ensures var a := PlaceAll(cols, xs, o);
            var b := PlaceAll(a.cols, ys, o);
            PlaceAll(cols, xs + ys, o) == Batch(b.cols, a.queue + b.queue)
    decreases |ys|
  {
    var a := PlaceAll(cols, xs, o);
    if ys == [] {
      assert xs + ys == xs;
    } else {
      var n := |ys|;
      var front, y := ys[..n - 1], ys[n - 1];
      assert ys == front + [y];
      assert xs + ys == (xs + front) + [y];
      PlaceAllAppend(cols, xs, front, o);
      var b := PlaceAll(a.cols, front, o);
      var s := Place(b.cols, y, o);
      PlaceAllSnoc(cols, xs + front, y, o);
      PlaceAllSnoc(a.cols, front, y, o);
      assert a.queue + b.queue + [s.placed] == a.queue + (b.queue + [s.placed]);
    }
  }

  /** Sum of the column heights. */
  function Sum(s: seq<int>): int
    decreases |s|
  {
    if s == [] then 0 else Sum(s[..|s| - 1]) + s[|s| - 1]
  }

  /** What a batch adds to the columns: one vertical gap plus the item's height
      per item. */
  function Growth(items: seq<Item>, o: Options): int
    decreases |items|
  {
    if items == [] then 0 else Growth(items[..|items| - 1], o) + o.gapHeight + items[|items| - 1].height
  }

  lemma {:induction false} SumUpdate(s: seq<int>, k: int, v: int)
    requires 0 <= k < |s|
    ensures Sum(s[k := v]) == Sum(s) - s[k] + v
    decreases |s|
  {
    var n := |s|;
    if k == n - 1 {
      assert s[k := v][..n - 1] == s[..n - 1];
    } else {
      SumUpdate(s[..n - 1], k, v);
      assert s[k := v][..n - 1] == s[..n - 1][k := v];
    }
  }

  /** Nothing is lost or invented: the columns grow in total by one vertical gap
      plus the item's height per item placed. */
  lemma {:induction false} PlaceAllTotal(cols: seq<int>, items: seq<Item>, o: Options)
    requires |cols| >= 1
    ensures Sum(PlaceAll(cols, items, o).cols) == Sum(cols) + Growth(items, o)
    decreases |items|
  {
    if items != [] {
      var n := |items|;
      var front := items[..n - 1];
      var x := items[n - 1];
      var b := PlaceAll(cols, front, o);
      PlaceAllTotal(cols, front, o);
      var s := Place(b.cols, x, o);
      PlaceEffect(b.cols, x, o);
      assert s.cols == b.cols[s.column := b.cols[s.column] + o.gapHeight + x.height];
      SumUpdate(b.cols, s.column, b.cols[s.column] + o.gapHeight + x.height);
      assert Sum(s.cols) == Sum(b.cols) + o.gapHeight + x.height;
    }
  }

  /** With a non-negative vertical gap no column ever gets shorter. */
  lemma {:induction false} PlaceAllGrows(cols: seq<int>, items: seq<Item>, o: Options)
    requires |cols| >= 1 && o.gapHeight >= 0
    ensures forall j :: 0 <= j < |cols| ==> cols[j] <= PlaceAll(cols, items, o).cols[j]
    decreases |items|
  {
    if items != [] {
      var front := items[..|items| - 1];
      PlaceAllGrows(cols, front, o);
      PlaceEffect(PlaceAll(cols, front, o).cols, items[|items| - 1], o);
    }
  }

  /** No two columns differ in height by more than `bound`. */
  ghost predicate Balanced(s: seq<int>, bound: int) {
    forall i, j :: 0 <= i < |s| && 0 <= j < |s| ==> s[i] - s[j] <= bound
  }

  lemma PlaceBalanced(cols: seq<int>, item: Item, o: Options, bound: int)
    requires |cols| >= 1 && Balanced(cols, bound)
    requires 0 <= o.gapHeight + item.height <= bound
    ensures Balanced(Place(cols, item, o).cols, bound)
  {
    var s := Place(cols, item, o);
    var c := s.column;
    PlaceEffect(cols, item, o);
    forall i, j | 0 <= i < |cols| && 0 <= j < |cols|
      ensures s.cols[i] - s.cols[j] <= bound
    {
      assert cols[c] <= cols[i] && cols[c] <= cols[j];
    }
  }

  /** Shortest-column placement keeps the layout balanced: if every increment
      (vertical gap plus item height) lies in `[0, bound]` and the columns start
      within `bound` of each other, they stay within `bound` of each other. */
  lemma {:induction false} PlaceAllBalanced(cols: seq<int>, items: seq<Item>, o: Options, bound: int)
    requires |cols| >= 1 && Balanced(cols, bound)
    requires forall k :: 0 <= k < |items| ==> 0 <= o.gapHeight + items[k].height <= bound
    ensures Balanced(PlaceAll(cols, items, o).cols, bound)
    decreases |items|
  {
    if items != [] {
      var n := |items|;
      PlaceAllBalanced(cols, items[..n - 1], o, bound);
      PlaceBalanced(PlaceAll(cols, items[..n - 1], o).cols, items[n - 1], o, bound);
    }
  }

  /** From freshly reset columns, the highest column is never more than one gap
      plus the tallest item above the lowest. */
  lemma FreshLayoutBalanced(n: nat, items: seq<Item>, o: Options, tallest: nat)
    requires n >= 1 && o.gapHeight >= 0
    requires forall k :: 0 <= k < |items| ==> items[k].height <= tallest
    ensures Balanced(PlaceAll(Zeros(n), items, o).cols, o.gapHeight + tallest)
  {
    PlaceAllBalanced(Zeros(n), items, o, o.gapHeight + tallest);
  }

  /** The elements of a sequence of items. */
  function ItemSet(items: seq<Item>): set<Item> {
    set x | x in items
  }

  lemma ItemSetSnoc(items: seq<Item>, x: Item)
    ensures ItemSet(items + [x]) == ItemSet(items) + {x}
  {
  }

  /** No element occurs twice: the children of a DOM node. */
  ghost predicate Distinct(s: seq<Item>) {
    forall i, j :: 0 <= i < j < |s| ==> s[i] != s[j]
  }

  lemma DistinctPrefix(s: seq<Item>, n: int)
    requires Distinct(s) && 0 <= n <= |s|
    ensures Distinct(s[..n])
  {
  }

  /** The sequence with every occurrence of `x` removed, the others kept in order. */
  function Without(c: seq<Item>, x: Item): (r: seq<Item>)
    ensures |r| <= |c|
    decreases |c|
  {
    if c == [] then []
    else if c[|c| - 1] == x then Without(c[..|c| - 1], x)
    else Without(c[..|c| - 1], x) + [c[|c| - 1]]
  }

  /** Removing `x` keeps exactly the other elements. */
  lemma {:induction false} WithoutElems(c: seq<Item>, x: Item)
    ensures forall y :: y in Without(c, x) <==> y in c && y != x
    ensures x !in Without(c, x)
    decreases |c|
  {
    if c != [] {
      var front := c[..|c| - 1];
      WithoutElems(front, x);
      assert c == front + [c[|c| - 1]];
    }
  }

  /** Removing an element that is not there changes nothing. */
  lemma {:induction false} WithoutAbsent(c: seq<Item>, x: Item)
    requires x !in c
    ensures Without(c, x) == c
    decreases |c|
  {
    if c != [] {
      var front := c[..|c| - 1];
      assert c == front + [c[|c| - 1]];
      WithoutAbsent(front, x);
    }
  }

  /** Removing an element keeps the others distinct. */
  lemma {:induction false} WithoutDistinct(c: seq<Item>, x: Item)
    requires Distinct(c)
    ensures Distinct(Without(c, x))
    decreases |c|
  {
    if c != [] {
      var front := c[..|c| - 1];
      var last := c[|c| - 1];
      assert c == front + [last];
      assert Distinct(front);
      WithoutDistinct(front, x);
      if last != x {
        WithoutElems(front, x);
        assert last !in front;
      }
    }
  }

  /** `container.append(x)`: an element already in the container is moved to the
      end, any other element is added at the end. */
  function Appended(c: seq<Item>, x: Item): (r: seq<Item>)
    ensures |r| >= 1 && r[|r| - 1] == x
  {
    Without(c, x) + [x]
  }

  /** After `append`, `x` is the last child and occurs nowhere else, and the
      children are the old ones and `x`. */
  lemma AppendedMoves(c: seq<Item>, x: Item)
    ensures var r := Appended(c, x);
            x !in r[..|r| - 1] && ItemSet(r) == ItemSet(c) + {x}
  {
    var r := Appended(c, x);
    assert r[..|r| - 1] == Without(c, x);
    WithoutElems(c, x);
  }

  /** Appending an element that is not yet a child adds it at the end. */
  lemma AppendedNew(c: seq<Item>, x: Item)
    requires x !in c
    ensures Appended(c, x) == c + [x]
  {
    WithoutAbsent(c, x);
  }

  /** Appending keeps distinct children distinct. */
  lemma AppendedDistinct(c: seq<Item>, x: Item)
    requires Distinct(c)
    ensures Distinct(Appended(c, x))
  {
    WithoutDistinct(c, x);
    WithoutElems(c, x);
  }

  /** The children after appending each element in turn. */
  function AppendAll(c: seq<Item>, items: seq<Item>): (r: seq<Item>)
    ensures items != [] ==> |r| >= 1 && r[|r| - 1] == items[|items| - 1]
    decreases |items|
  {
    if items == [] then c else Appended(AppendAll(c, items[..|items| - 1]), items[|items| - 1])
  }

  lemma AppendAllSnoc(c: seq<Item>, items: seq<Item>, x: Item)
    ensures AppendAll(c, items + [x]) == Appended(AppendAll(c, items), x)
  {
    assert (items + [x])[..|items|] == items;
  }

  /** After appending a batch, the children are the old ones and the batch's. */
  lemma {:induction false} AppendAllEffect(c: seq<Item>, items: seq<Item>)
    ensures ItemSet(AppendAll(c, items)) == ItemSet(c) + ItemSet(items)
    decreases |items|
  {
    if items != [] {
      var front := items[..|items| - 1];
      var last := items[|items| - 1];
      assert items == front + [last];
      AppendAllEffect(c, front);
      AppendedMoves(AppendAll(c, front), last);
      ItemSetSnoc(front, last);
    }
  }

  /** Appending a batch keeps distinct children distinct. */
  lemma {:induction false} AppendAllDistinct(c: seq<Item>, items: seq<Item>)
    requires Distinct(c)
    ensures Distinct(AppendAll(c, items))
    decreases |items|
  {
    if items != [] {
      var front := items[..|items| - 1];
      AppendAllDistinct(c, front);
      AppendedDistinct(AppendAll(c, front), items[|items| - 1]);
    }
  }

  /** When no element of the batch is already a child and none repeats, the
      batch is simply added at the end, in order. */
  lemma {:induction false} AppendAllNew(c: seq<Item>, items: seq<Item>)
    requires Distinct(c + items)
    ensures AppendAll(c, items) == c + items
    decreases |items|
  {
    if items != [] {
      var front := items[..|items| - 1];
      var last := items[|items| - 1];
      assert items == front + [last];
      assert c + items == (c + front) + [last];
      assert (c + items)[..|c + front|] == c + front;
      DistinctPrefix(c + items, |c + front|);
      AppendAllNew(c, front);
      assert (c + items)[|c + front|] == last;
      assert forall k :: 0 <= k < |c + front| ==> (c + front)[k] == (c + items)[k];
      assert last !in c + front;
      AppendedNew(c + front, last);
    }
  }

  /** The elements named in a queue. */
  function ItemsOf(q: seq<Placement>): set<Item> {
    set p | p in q :: p.item
  }

  /** The flushing loop of `layout`: each queued position is applied to its
      element in queue order. */
  function ApplyStyles(m: map<Item, Pos>, q: seq<Placement>): (r: map<Item, Pos>)
    ensures m.Keys <= r.Keys
    ensures q != [] ==> q[|q| - 1].item in r && r[q[|q| - 1].item] == q[|q| - 1].pos
    decreases |q|
  {
    if q == [] then m else ApplyStyles(m, q[..|q| - 1])[q[|q| - 1].item := q[|q| - 1].pos]
  }

  /** Flushing positions exactly the queued elements, and leaves every other
      element where it was. */
  lemma {:induction false} ApplyStylesFrame(m: map<Item, Pos>, q: seq<Placement>)
    ensures ApplyStyles(m, q).Keys == m.Keys + ItemsOf(q)
    ensures forall x :: x in m && x !in ItemsOf(q) ==> ApplyStyles(m, q)[x] == m[x]
    decreases |q|
  {
    if q != [] {
      var front := q[..|q| - 1];
      ApplyStylesFrame(m, front);
      assert q == front + [q[|q| - 1]];
      assert ItemsOf(q) == ItemsOf(front) + {q[|q| - 1].item};
    }
  }

  /** One more queued entry is applied after the others. */
  lemma ApplyStylesSnoc(m: map<Item, Pos>, q: seq<Placement>, p: Placement)
    ensures ApplyStyles(m, q + [p]) == ApplyStyles(m, q)[p.item := p.pos]
  {
    assert (q + [p])[..|q|] == q;
  }

  /** An element ends where its last queued entry puts it. */
  lemma {:induction false} ApplyStylesLastWins(m: map<Item, Pos>, q: seq<Placement>, k: int)
    requires 0 <= k < |q|
    requires forall j :: k < j < |q| ==> q[j].item != q[k].item
    ensures q[k].item in ApplyStyles(m, q) && ApplyStyles(m, q)[q[k].item] == q[k].pos
    decreases |q|
  {
    if k < |q| - 1 {
      ApplyStylesLastWins(m, q[..|q| - 1], k);
    }
  }

  /** Flushing two queues one after the other is flushing their concatenation. */
  lemma {:induction false} ApplyStylesAppend(m: map<Item, Pos>, q1: seq<Placement>, q2: seq<Placement>)
    ensures ApplyStyles(ApplyStyles(m, q1), q2) == ApplyStyles(m, q1 + q2)
    decreases |q2|
  {
    if q2 == [] {
      assert q1 + q2 == q1;
    } else {
      var n := |q2|;
      var front := q2[..n - 1];
      var last := q2[n - 1];
      ApplyStylesAppend(m, q1, front);
      assert (q1 + q2)[..|q1 + q2| - 1] == q1 + front;
      assert (q1 + q2)[|q1 + q2| - 1] == last;
      calc {
        ApplyStyles(m, q1 + q2);
        ApplyStyles(m, q1 + front)[last.item := last.pos];
        ApplyStyles(ApplyStyles(m, q1), front)[last.item := last.pos];
        ApplyStyles(ApplyStyles(m, q1), q2);
      }
    }
  }

  /** Three columns 200 px wide with 15 px gaps: items of heights 100, 50 and 80
      take one column each, at the top; the columns are then 115, 65 and 95 high,
      and an item of height 10 goes to the second column, 65 px down. */
  lemma ThreeColumnExample(o: Options, items: seq<Item>)
    requires o == Defaults(200) && items == [Item(1, 100), Item(2, 50), Item(3, 80)]
    ensures var b := PlaceAll(Zeros(3), items, o);
            b.cols == [115, 65, 95] &&
            b.queue == [Placement(items[0], Pos(0, 0)),
                        Placement(items[1], Pos(215, 0)),
                        Placement(items[2], Pos(430, 0))] &&
            Place(b.cols, Item(4, 10), o) == Step(1, [115, 90, 95], Placement(Item(4, 10), Pos(215, 65)))
  {
    ThreeColumnBatch(o, items);
    ExampleStep(o, [115, 65, 95], Item(4, 10), 1, [115, 90, 95]);
  }

  /** The three items of the example, one after the other. */
  lemma ThreeColumnBatch(o: Options, items: seq<Item>)
    requires o == Defaults(200) && items == [Item(1, 100), Item(2, 50), Item(3, 80)]
    ensures PlaceAll(Zeros(3), items, o) ==
            Batch([115, 65, 95], [Placement(items[0], Pos(0, 0)),
                                  Placement(items[1], Pos(215, 0)),
                                  Placement(items[2], Pos(430, 0))])
  {
    var firstTwo := [items[0], items[1]];
    FirstTwoOfExample(o, items, firstTwo);
    ExampleStep(o, [115, 65, 0], items[2], 2, [115, 65, 95]);
    PlaceAllSnoc(Zeros(3), firstTwo, items[2], o);
    assert firstTwo + [items[2]] == items;
  }

  lemma FirstTwoOfExample(o: Options, items: seq<Item>, firstTwo: seq<Item>)
    requires o == Defaults(200) && items == [Item(1, 100), Item(2, 50), Item(3, 80)]
    requires firstTwo == [items[0], items[1]]
    ensures PlaceAll(Zeros(3), firstTwo, o) ==
            Batch([115, 65, 0], [Placement(items[0], Pos(0, 0)), Placement(items[1], Pos(215, 0))])
  {
    var z := Zeros(3);
    assert z == [0, 0, 0];
    ExampleStep(o, z, items[0], 0, [115, 0, 0]);
    PlaceAllSingle(z, items[0], o);
    ExampleStep(o, [115, 0, 0], items[1], 1, [115, 65, 0]);
    PlaceAllSnoc(z, [items[0]], items[1], o);
    assert [items[0]] + [items[1]] == firstTwo;
  }

  lemma ExampleStep(o: Options, cols: seq<int>, item: Item, k: nat, after: seq<int>)
    requires o == Defaults(200) && k < |cols|
    requires IsFirstMin(cols, k) && after == cols[k := cols[k] + 15 + item.height]
    ensures Place(cols, item, o) == Step(k, after, Placement(item, Pos(k * 215, cols[k])))
  {
    MinIndexUnique(cols, k);
    PlaceEffect(cols, item, o);
  }
}

=== FILE: config.dfy ===
/** Options of a waterfall, the construction-time check, and the column-count
    resolver (src/jquery.waterfall.js, `_init`, `_resetColCount`, `_resetWidth`). */
module Config {

  /** The options a waterfall is built from. `hasContainer` is the truthiness of
      the `container` option, a jQuery object, which is truthy even when it
      matches no element; a truthy container is taken to hold its element.
      `maxCol == 0` stands for every falsy value of the option
      (null, undefined, 0, false): the source only tests its truthiness and then
      compares its number, so 0 behaves exactly like each of them. */
  datatype Options = Options(
    hasContainer: bool,
    colWidth: int,
    minCol: int,
    maxCol: int,
    gapWidth: int,
    gapHeight: int,
    preDistance: int)

  /** The two errors `_init` throws. */
  datatype ConfigError = MissingContainer | MinColAboveMaxCol

  datatype Outcome = Pass | Fail(error: ConfigError)

  /** The defaults of the source (`defaultOptions`), with a container present:
      between 1 and 10 columns, 15 px gaps, loads 100 px before the bottom. */
  function Defaults(colWidth: int): (o: Options)
    ensures Check(o) == Pass && Bounded(o)
    ensures Admissible(o) <==> colWidth != -15
  {
    Options(true, colWidth, 1, 10, 15, 15, 100)
  }

  /** Whether `maxCol` is truthy, so that the column count is capped. */
  predicate Bounded(o: Options) {
    o.maxCol != 0
  }

  /** The validation at the start of `_init`: the container option's truthiness
      first, then the bounds. */
  function Check(o: Options): (r: Outcome)
    ensures r == Pass <==> o.hasContainer && (Bounded(o) ==> o.minCol <= o.maxCol)
    ensures r == Fail(MinColAboveMaxCol) ==> o.hasContainer
    ensures o.hasContainer && r != Pass ==> r == Fail(MinColAboveMaxCol)
  {
    if !o.hasContainer then Fail(MissingContainer)
    else if Bounded(o) && o.minCol > o.maxCol then Fail(MinColAboveMaxCol)
    else Pass
  }

  /** What the model asks of a configuration the check accepts: a non-zero column
      pitch, so that the raw count is an integer (a zero pitch makes it NaN or an
      infinity in JavaScript), and `minCol >= 1`, the constraint the option's
      documentation leaves to the caller. */
  predicate Admissible(o: Options) {
    o.colWidth + o.gapWidth != 0 && o.minCol >= 1
  }

  /** `Math.floor(a / d)`. Dafny's `/` is Euclidean: the floor for a positive
      divisor, the ceiling for a negative one, so a negative divisor goes through
      the negated operands. */
  function FloorDiv(a: int, d: int): (q: int)
    requires d != 0
    ensures d > 0 ==> q * d <= a < q * d + d
    ensures d < 0 ==> q * d + d < a <= q * d
  {
    if d > 0 then a / d else (-a) / (-d)
  }

  /** The number of columns that fit in the window before clamping:
      floor((W + gapWidth) / (colWidth + gapWidth)). */
  function RawColCount(o: Options, windowWidth: int): (n: int)
    requires o.colWidth + o.gapWidth != 0
    ensures o.colWidth + o.gapWidth > 0 ==>
            n * (o.colWidth + o.gapWidth) <= windowWidth + o.gapWidth < (n + 1) * (o.colWidth + o.gapWidth)
  {
    FloorDiv(windowWidth + o.gapWidth, o.colWidth + o.gapWidth)
  }

  /** The container width for `n` columns, as `_resetWidth` sets it: `n` column
      pitches less the one gap after the last column. */
  function ContainerWidth(o: Options, n: int): (w: int)
    ensures w + o.gapWidth == n * (o.colWidth + o.gapWidth)
  {
    n * o.colWidth + (n - 1) * o.gapWidth
  }

  /** The resolved column count: the raw count raised to `minCol` and, when
      `maxCol` is truthy, lowered to `maxCol`. */
  function ColCount(o: Options, windowWidth: int): (n: int)
    requires o.colWidth + o.gapWidth != 0
    ensures Bounded(o) ==> n <= o.maxCol
    ensures (Bounded(o) ==> o.minCol <= o.maxCol) ==> o.minCol <= n
    ensures RawColCount(o, windowWidth) < o.minCol && (Bounded(o) ==> o.minCol <= o.maxCol) ==>
            n == o.minCol
    ensures o.minCol <= RawColCount(o, windowWidth) &&
            (Bounded(o) ==> RawColCount(o, windowWidth) <= o.maxCol) ==>
            n == RawColCount(o, windowWidth)
    ensures n < RawColCount(o, windowWidth) ==> Bounded(o) && n == o.maxCol
    ensures n > RawColCount(o, windowWidth) ==> n == o.minCol || (Bounded(o) && n == o.maxCol)
  {
    var count := RawColCount(o, windowWidth);
    var raised := if count < o.minCol then o.minCol else count;
    if Bounded(o) && raised > o.maxCol then o.maxCol else raised
  }

  /** The container width grows with the column count. */
  lemma ContainerWidthMonotone(o: Options, a: int, b: int)
    requires o.colWidth + o.gapWidth > 0
    requires a <= b
    ensures ContainerWidth(o, a) <= ContainerWidth(o, b)
  {
    var d := o.colWidth + o.gapWidth;
    assert ContainerWidth(o, a) == a * d - o.gapWidth;
    assert ContainerWidth(o, b) == b * d - o.gapWidth;
    assert a * d <= b * d;
  }

  /** The raw count is the largest number of columns whose container fits in the
      window: its container is no wider than the window, one more column would be. */
  lemma RawColCountFits(o: Options, windowWidth: int)
    requires o.colWidth + o.gapWidth > 0
    ensures ContainerWidth(o, RawColCount(o, windowWidth)) <= windowWidth
    ensures windowWidth < ContainerWidth(o, RawColCount(o, windowWidth) + 1)
  {
    var d := o.colWidth + o.gapWidth;
    var q := RawColCount(o, windowWidth);
    var r := (windowWidth + o.gapWidth) % d;
    assert windowWidth + o.gapWidth == q * d + r && 0 <= r < d;
    assert ContainerWidth(o, q) == q * d - o.gapWidth;
    assert ContainerWidth(o, q + 1) == (q + 1) * d - o.gapWidth == q * d + d - o.gapWidth;
  }

  /** The resolved count fills the window: its container fits unless `minCol`
      forced more columns, and no further column would fit unless `maxCol` capped
      the count. */
  lemma ColCountFits(o: Options, windowWidth: int)
    requires o.colWidth + o.gapWidth > 0
    ensures ColCount(o, windowWidth) > o.minCol ==>
            ContainerWidth(o, ColCount(o, windowWidth)) <= windowWidth
    ensures !(Bounded(o) && ColCount(o, windowWidth) == o.maxCol) ==>
            windowWidth < ContainerWidth(o, ColCount(o, windowWidth) + 1)
  {
    var n := ColCount(o, windowWidth);
    var raw := RawColCount(o, windowWidth);
    RawColCountFits(o, windowWidth);
    if n > o.minCol {
      ContainerWidthMonotone(o, n, raw);
    }
    if !(Bounded(o) && n == o.maxCol) {
      ContainerWidthMonotone(o, raw + 1, n + 1);
    }
  }

  /** Two configurations worked through: a window wide enough for five columns
      under `minCol = maxCol = 2` gets two; `minCol = 5, maxCol = 2` is refused. */
  lemma ColCountExamples()
    ensures var o := Options(true, 200, 2, 2, 15, 15, 100);
            RawColCount(o, 1100) == 5 && ColCount(o, 1100) == 2
    ensures Check(Options(true, 200, 5, 2, 15, 15, 100)) == Fail(MinColAboveMaxCol)
    ensures Check(Options(false, 200, 5, 2, 15, 15, 100)) == Fail(MissingContainer)
    ensures Check(Defaults(200)) == Pass && Admissible(Defaults(200))
    ensures var o := Options(true, 10, 1, 0, -20, 15, 100);
            RawColCount(o, 100) == -8 && ColCount(o, 100) == 1
  {
  }
}

=== FILE: loadcontrol.dfy ===
/** The load controller: the four states of a waterfall and the transitions its
    operations make (src/jquery.waterfall.js, `_load`, `doLoad`, `addItem`,
    `success`, `end`). The class in waterfall.dfy is proved against `Next`. */
module LoadControl {

  /** `ready`: idle; `rendering`: an item is being added; `loading`: a load is
      outstanding; `end`: no more loads are wanted. */
  datatype State = Ready | Rendering | Loading | End

  /** The operations that touch the state. `TryLoad(near)` is `_load` with the
      outcome of its bottom-proximity test; `Relayout` is `layout` or `doResize`,
      which leave the state alone. */
  datatype Event = TryLoad(near: bool) | DoLoad | AddItem | Success | Finish | Relayout

  /** The test of `_load`: the bottom of the container is at most `preDistance`
      pixels below the bottom of the viewport. */
  function NearBottom(viewportHeight: int, preDistance: int, containerTop: int, containerHeight: int): (b: bool)
    ensures b <==> (containerTop + containerHeight) - viewportHeight <= preDistance
  {
    viewportHeight + preDistance >= containerTop + containerHeight
  }

  /** The state after one operation. `addItem` passes through `rendering` and ends
      in `ready`. */
  function Next(s: State, e: Event): (r: State)
    ensures r == Loading <==> e == DoLoad || (e.TryLoad? && e.near && s == Ready) ||
                              (s == Loading && (e.TryLoad? || e.Relayout?))
    ensures r == End <==> e == Finish || (s == End && (e.TryLoad? || e.Relayout?))
    ensures r == Rendering <==> s == Rendering && (e.TryLoad? || e.Relayout?)
  {
    match e
    case TryLoad(near) => if s == Ready && near then Loading else s
    case DoLoad => Loading
    case AddItem => Ready
    case Success => Ready
    case Finish => End
    case Relayout => s
  }

  /** The state after a sequence of operations, applied in order. */
  function Run(s: State, events: seq<Event>): State
    decreases |events|
  {
    if events == [] then s else Run(Next(s, events[0]), events[1..])
  }

  /** `_load` starts a load exactly when the state is `ready` and the container's
      bottom is near; otherwise it changes nothing. */
  lemma TryLoadGuard(s: State, near: bool)
    ensures Next(s, TryLoad(near)) != s <==> s == Ready && near
    ensures s == Ready && near ==> Next(s, TryLoad(near)) == Loading
  {
  }

  /** Whatever the state, `success` and `addItem` leave it `ready`, `doLoad`
      leaves it `loading`, and `end` leaves it `end`. */
  lemma UnconditionalTransitions(s: State)
    ensures Next(s, Success) == Ready && Next(s, AddItem) == Ready
    ensures Next(s, DoLoad) == Loading && Next(s, Finish) == End
  {
  }

  /** A load begins only through `doLoad`, or through `_load` from `ready` with
      the bottom near. */
  lemma LoadBeginsOnlyWhenPermitted(s: State, e: Event)
    requires s != Loading && Next(s, e) == Loading
    ensures e == DoLoad || (e.TryLoad? && e.near && s == Ready)
  {
  }

  /** The operations that keep `end` where it is: scroll- or resize-triggered
      load attempts, relayouts and further calls of `end`. */
  predicate KeepsEnd(e: Event) {
    e.TryLoad? || e.Relayout? || e == Finish
  }

  /** `end` is terminal for every run made of load attempts, relayouts and `end`
      calls: no scroll or resize can start a load again. */
  lemma {:induction false} EndIsTerminal(events: seq<Event>)
    requires forall i :: 0 <= i < |events| ==> KeepsEnd(events[i])
    ensures Run(End, events) == End
    decreases |events|
  {
    if events != [] {
      assert KeepsEnd(events[0]);
      EndIsTerminal(events[1..]);
    }
  }

  /** `end` is terminal only under that condition: a later `success` makes the
      state `ready` again, and the next near-bottom attempt starts a load. */
  lemma EndReopenedBySuccess()
    ensures Run(End, [Success, TryLoad(true)]) == Loading
  {
    assert [Success, TryLoad(true)][1..] == [TryLoad(true)];
  }

  /** The operations that do not release an outstanding load. */
  predicate KeepsLoading(e: Event) {
    e.TryLoad? || e.Relayout? || e == DoLoad
  }

  /** Once `loading`, the state stays `loading` until the loader calls `success`
      or `end` (or an item is added): scrolling and resizing never release it. */
  lemma {:induction false} LoadingHeldUntilLoaderReturns(events: seq<Event>)
    requires forall i :: 0 <= i < |events| ==> KeepsLoading(events[i])
    ensures Run(Loading, events) == Loading
    decreases |events|
  {
    if events != [] {
      assert KeepsLoading(events[0]);
      LoadingHeldUntilLoaderReturns(events[1..]);
    }
  }

  /** One round of `_firstLoad`'s loop as written: `_load` is tried while the
      state is `ready` and the window is at least as tall as the body. Nothing in
      the round can change those measurements: the loader runs later, on a timer. */
  function FirstLoadRound(s: State, windowAtLeastBody: bool, near: bool): (r: State)
    ensures r != s <==> s == Ready && windowAtLeastBody && near
    ensures r != s ==> r == Loading
  {
    if s == Ready && windowAtLeastBody then Next(s, TryLoad(near)) else s
  }

  /** The state after `n` rounds of that loop with fixed measurements. */
  function FirstLoadRounds(s: State, windowAtLeastBody: bool, near: bool, n: nat): (r: State)
    ensures r != s ==> s == Ready && windowAtLeastBody && near && r == Loading
    decreases n
  {
    if n == 0 then s else FirstLoadRound(FirstLoadRounds(s, windowAtLeastBody, near, n - 1), windowAtLeastBody, near)
  }

  /** The state settles after the first round: every later round repeats it. */
  lemma {:induction false} FirstLoadRoundsSettle(s: State, windowAtLeastBody: bool, near: bool, n: nat)
    requires n >= 1
    ensures FirstLoadRounds(s, windowAtLeastBody, near, n) == FirstLoadRound(s, windowAtLeastBody, near)
    decreases n
  {
    if n > 1 {
      FirstLoadRoundsSettle(s, windowAtLeastBody, near, n - 1);
    }
  }

  /** The loop as written never exits when the state is `ready`, the window is at
      least as tall as the body and the container's bottom is not near: after any
      number of rounds the loop's guard still holds. */
  lemma {:induction false} FirstLoadNeverExits(n: nat)
    ensures FirstLoadRounds(Ready, true, false, n) == Ready
    decreases n
  {
    if n > 0 {
      FirstLoadNeverExits(n - 1);
    }
  }

  /** From `ready`, a run of load attempts starts at most one load: after the
      first permitted attempt every later one is suppressed. */
  lemma {:induction false} AttemptsStartOneLoad(events: seq<Event>)
    requires forall i :: 0 <= i < |events| ==> events[i].TryLoad?
    ensures Run(Ready, events) == (if exists i :: 0 <= i < |events| && events[i].near then Loading else Ready)
    decreases |events|
  {
    if events != [] {
      var rest := events[1..];
      assert forall i :: 0 <= i < |rest| ==> rest[i] == events[i + 1];
      if events[0].near {
        LoadingHeldUntilLoaderReturns(rest);
      } else {
        AttemptsStartOneLoad(rest);
        assert (exists i :: 0 <= i < |events| && events[i].near)
           <==> (exists i :: 0 <= i < |rest| && rest[i].near);
      }
    }
  }
}

=== FILE: waterfall.dfy ===
/** The `Waterfall` object of src/jquery.waterfall.js: its fields are updated in
    place by its methods. The column heights are an array, the style queue and the
    container's children are sequences. What the object does to the page (the
    positions it gives the elements, the container's width and height, the
    `ready` class) is kept in ghost fields. Measurements of the page are
    parameters. */
module Waterfall {
  import opened Config
  import opened Columns
  import opened LoadControl

  /** What `success` is given: an array of items, or anything else (`None`). */
  datatype Option<T> = None | Some(value: T)

  datatype Result<T> = Ok(value: T) | Err(error: ConfigError)

  /** Adding item `i` after items `0..i-1` extends each of the batch's effects
      by the effect of adding that item alone. */
  lemma OneMoreItem(cols0: seq<int>, children0: seq<Item>, m0: map<Item, Pos>,
                    items: seq<Item>, i: int, o: Options)
    requires |cols0| >= 1 && 0 <= i < |items|
    ensures var b := PlaceAll(cols0, items[..i], o);
            var s := PlaceAll(b.cols, [items[i]], o);
            PlaceAll(cols0, items[..i + 1], o).cols == s.cols &&
            ApplyStyles(m0, PlaceAll(cols0, items[..i + 1], o).queue) == ApplyStyles(ApplyStyles(m0, b.queue), s.queue) &&
            ItemSet(items[..i + 1]) == ItemSet(items[..i]) + {items[i]} &&
            AppendAll(children0, items[..i + 1]) == Appended(AppendAll(children0, items[..i]), items[i])
  {
    var b := PlaceAll(cols0, items[..i], o);
    var step := Place(b.cols, items[i], o);
    PlaceAllSingle(b.cols, items[i], o);
    PrefixSnoc(items, i);
    PlaceAllSnoc(cols0, items[..i], items[i], o);
    ApplyStylesSnoc(m0, b.queue, step.placed);
    ItemSetSnoc(items[..i], items[i]);
    AppendAllSnoc(children0, items[..i], items[i]);
  }

  class Waterfall {
    const opts: Options
    var colCount: int
    var colHeightArr: array<int>
    var styleQueue: seq<Placement>
    var state: State
    /** The direct children of the container, in document order. */
    var children: seq<Item>
    /** Whether `_load` is bound to the window's scroll event. */
    var scrollBound: bool

    /** The position last applied to each element. */
    ghost var positions: map<Item, Pos>
    /** The container's style width and css height. */
    ghost var containerWidth: int
    ghost var containerHeight: int
    /** The elements that carry the class `ready`. */
    ghost var readyItems: set<Item>

    /** The object invariant: accepted options, one height per column, a column
        count within the bounds, no style left unapplied between operations, and
        no element twice among the container's children. */
    ghost predicate Valid()
      reads this
    {
      Check(opts) == Pass && Admissible(opts) &&
      colHeightArr.Length == colCount &&
      opts.minCol <= colCount && (Bounded(opts) ==> colCount <= opts.maxCol) &&
      styleQueue == [] && Distinct(children)
    }

    /** `_init` once its checks have passed, ending with the first loads of
        `_firstLoad` (in the corrected form `FirstLoad`), and `_bind`'s scroll
        binding. The page's measurements at that moment are parameters. */
    constructor (o: Options, windowWidth: int, items: seq<Item>,
                 viewportHeight: int, bodyHeight: int, containerTop: int, measuredHeight: int)
      requires Check(o) == Pass && Admissible(o) && Distinct(items)
      ensures Valid() && fresh(colHeightArr)
      ensures opts == o && colCount == ColCount(o, windowWidth)
      ensures colHeightArr[..] == Zeros(colCount)
      ensures containerWidth == ContainerWidth(o, colCount)
      ensures state == FirstLoadRound(Ready, viewportHeight >= bodyHeight,
                                      NearBottom(viewportHeight, o.preDistance, containerTop, measuredHeight))
      ensures scrollBound && children == items
    {
      opts := o;
      children := items;
      styleQueue := [];
      colHeightArr := new int[0];
      state := Ready;
      scrollBound := true;
      new;
      ResetColHeightArr(windowWidth);
      ResetWidth();
      FirstLoad(viewportHeight, bodyHeight, containerTop, measuredHeight);
    }

    /** `_resetColCount`. */
    method ResetColCount(windowWidth: int)
      requires Admissible(opts)
      modifies this`colCount
      ensures colCount == ColCount(opts, windowWidth)
    {
      var width := windowWidth + opts.gapWidth;
      var pitch := opts.colWidth + opts.gapWidth;
      var count := if pitch > 0 then width / pitch else (-width) / (-pitch);
      assert count == RawColCount(opts, windowWidth);
      if count < opts.minCol {
        count := opts.minCol;
      }
      if Bounded(opts) && count > opts.maxCol {
        count := opts.maxCol;
      }
      colCount := count;
    }

    /** `_resetWidth`. */
    method ResetWidth()
      modifies this`containerWidth
      ensures containerWidth == ContainerWidth(opts, colCount)
    {
      containerWidth := colCount * opts.colWidth + (colCount - 1) * opts.gapWidth;
    }

    /** `_resetColHeightArr`: a new column count, and one zero per column. */
    method ResetColHeightArr(windowWidth: int)
      requires Check(opts) == Pass && Admissible(opts)
      modifies this`colCount, this`colHeightArr
      ensures fresh(colHeightArr)
      ensures colCount == ColCount(opts, windowWidth)
      ensures colHeightArr.Length == colCount && colHeightArr[..] == Zeros(colCount)
    {
      ResetColCount(windowWidth);
      var arr := new int[colCount];
      for i := 0 to colCount
        modifies arr
        invariant forall k :: 0 <= k < i ==> arr[k] == 0
      {
        arr[i] := 0;
      }
      colHeightArr := arr;
    }

    /** `getMinHIndex`: the first column of minimum height (0 if there is none). */
    method GetMinHIndex() returns (inx: nat)
      ensures inx == MinIndex(colHeightArr[..])
      ensures colHeightArr.Length > 0 ==> IsFirstMin(colHeightArr[..], inx)
    {
      inx := 0;
      var arr := colHeightArr;
      var l := arr.Length;
      var i := 1;
      while i < l
        invariant l >= 1 ==> i <= l && inx == MinIndex(arr[..i])
        invariant l == 0 ==> inx == 0
      {
        assert arr[..i + 1][..i] == arr[..i];
        MinIndexIsFirstMin(arr[..i]);
        if arr[i] < arr[inx] {
          inx := i;
        }
        i := i + 1;
      }
      assert l >= 1 ==> arr[..i] == arr[..];
      if l > 0 {
        MinIndexIsFirstMin(arr[..]);
      }
    }

    /** `getMaxHeight`: the greatest column height, and at least 0. */
    method GetMaxHeight() returns (max: int)
      ensures max == MaxHeight(colHeightArr[..])
    {
      var arr := colHeightArr;
      var l := arr.Length;
      max := 0;
      for i := 0 to l
        invariant max == MaxHeight(arr[..i])
      {
        assert arr[..i + 1][..i] == arr[..i];
        if max < arr[i] {
          max := arr[i];
        }
      }
      assert arr[..l] == arr[..];
    }

    /** `_placeItem`: queue the item at the first shortest column and grow it. */
    method PlaceItem(item: Item)
      requires colHeightArr.Length >= 1
      modifies colHeightArr, this`styleQueue
      ensures colHeightArr[..] == Place(old(colHeightArr[..]), item, opts).cols
      ensures styleQueue == old(styleQueue) + [Place(old(colHeightArr[..]), item, opts).placed]
    {
      var inx := GetMinHIndex();
      var pos := Pos(inx * (opts.colWidth + opts.gapWidth), colHeightArr[inx]);
      colHeightArr[inx] := colHeightArr[inx] + opts.gapHeight + item.height;
      styleQueue := styleQueue + [Placement(item, pos)];
    }

    /** `layout`: place the items in order, set the container's height to the
        highest column, then apply the queued positions in order and empty the
        queue. */
    method Layout(items: seq<Item>)
      requires Valid()
      modifies colHeightArr, this`styleQueue, this`positions, this`containerHeight
      ensures Valid()
      ensures colHeightArr[..] == PlaceAll(old(colHeightArr[..]), items, opts).cols
      ensures containerHeight == MaxHeight(colHeightArr[..])
      ensures positions == ApplyStyles(old(positions), PlaceAll(old(colHeightArr[..]), items, opts).queue)
    {
      ghost var start := colHeightArr[..];
      ghost var batch := PlaceAll(start, items, opts);
      var i := 0;
      while i < |items|
        modifies colHeightArr, this`styleQueue
        invariant 0 <= i <= |items|
        invariant colHeightArr[..] == PlaceAll(start, items[..i], opts).cols
        invariant styleQueue == PlaceAll(start, items[..i], opts).queue
      {
        PlaceItem(items[i]);
        assert items[..i + 1] == items[..i] + [items[i]];
        PlaceAllSnoc(start, items[..i], items[i], opts);
        i := i + 1;
      }
      assert items[..i] == items;
      assert colHeightArr[..] == batch.cols && styleQueue == batch.queue;

      var height := GetMaxHeight();
      containerHeight := height;
      FlushStyleQueue();
    }

    /** The second loop of `layout`: apply each queued position to its element,
        in queue order, then empty the queue. */
    method FlushStyleQueue()
      modifies this`positions, this`styleQueue
      ensures positions == ApplyStyles(old(positions), old(styleQueue))
      ensures styleQueue == []
    {
      var j := 0;
      while j < |styleQueue|
        modifies this`positions
        invariant 0 <= j <= |styleQueue|
        invariant positions == ApplyStyles(old(positions), styleQueue[..j])
      {
        assert styleQueue[..j + 1] == styleQueue[..j] + [styleQueue[j]];
        ApplyStylesSnoc(old(positions), styleQueue[..j], styleQueue[j]);
        positions := positions[styleQueue[j].item := styleQueue[j].pos];
        j := j + 1;
      }
      assert styleQueue[..j] == styleQueue;
      styleQueue := [];
    }

    /** `addItem`: append the element to the container, lay it out, mark it
        `ready`; the state is `rendering` meanwhile and `ready` afterwards. */
    method AddItem(item: Item)
      requires Valid()
      modifies colHeightArr, this`styleQueue, this`positions, this`containerHeight,
               this`state, this`children, this`readyItems
      ensures Valid()
      ensures state == Next(old(state), Event.AddItem)
      ensures children == Appended(old(children), item)
      ensures colHeightArr[..] == PlaceAll(old(colHeightArr[..]), [item], opts).cols
      ensures containerHeight == MaxHeight(colHeightArr[..])
      ensures positions == ApplyStyles(old(positions), PlaceAll(old(colHeightArr[..]), [item], opts).queue)
      ensures readyItems == old(readyItems) + {item}
    {
      state := Rendering;
      var inx := GetMinHIndex();  // computed and not used, as in the source
      AppendedDistinct(children, item);
      children := Appended(children, item);
      Layout([item]);
      readyItems := readyItems + {item};
      state := Ready;
    }

    /** `doResize` up to the relayout: a new column count for the window's width,
        fresh zeroed columns, the new container width, and every child of the
        container laid out again from the top. */
    method DoResize(windowWidth: int)
      requires Valid()
      modifies this`colCount, this`colHeightArr, this`containerWidth, this`styleQueue,
               this`positions, this`containerHeight
      ensures Valid() && fresh(colHeightArr)
      ensures colCount == ColCount(opts, windowWidth)
      ensures containerWidth == ContainerWidth(opts, colCount)
      ensures colHeightArr[..] == PlaceAll(Zeros(colCount), children, opts).cols
      ensures containerHeight == MaxHeight(colHeightArr[..])
      ensures positions == ApplyStyles(old(positions), PlaceAll(Zeros(colCount), children, opts).queue)
    {
      ResetColHeightArr(windowWidth);
      ResetWidth();
      Layout(children);
    }

    /** `_load`: start a load when the state is `ready` and the container's bottom
        is within `preDistance` of the viewport's bottom. */
    method Load(viewportHeight: int, containerTop: int, measuredHeight: int)
      modifies this`state
      ensures state == Next(old(state), TryLoad(NearBottom(viewportHeight, opts.preDistance, containerTop, measuredHeight)))
    {
      if state == Ready && viewportHeight + opts.preDistance >= containerTop + measuredHeight {
        DoLoad();
      }
    }

    /** `doLoad`: the state becomes `loading`; the loader itself is called later,
        by a timer. */
    method DoLoad()
      modifies this`state
      ensures state == Next(old(state), Event.DoLoad)
    {
      state := Loading;
    }

    /** The window's scroll handler: `_load` while it is bound. */
    method OnScroll(viewportHeight: int, containerTop: int, measuredHeight: int)
      modifies this`state
      ensures !scrollBound ==> state == old(state)
      ensures scrollBound ==>
        state == Next(old(state), TryLoad(NearBottom(viewportHeight, opts.preDistance, containerTop, measuredHeight)))
    {
      if scrollBound {
        Load(viewportHeight, containerTop, measuredHeight);
      }
    }

    /** `_firstLoad`, corrected: `_load` is tried while the state is `ready` and
        the window is at least as tall as the body, and the loop also stops once
        an attempt is refused, since nothing in the loop can change the
        measurements that refused it (the loop as written is `FirstLoadRounds`).
        It ends in the state that one round of the loop as written reaches. */
    method FirstLoad(viewportHeight: int, bodyHeight: int, containerTop: int, measuredHeight: int)
      modifies this`state
      ensures state == FirstLoadRound(old(state), viewportHeight >= bodyHeight,
                                      NearBottom(viewportHeight, opts.preDistance, containerTop, measuredHeight))
    {
      ghost var near := NearBottom(viewportHeight, opts.preDistance, containerTop, measuredHeight);
      ghost var permitted := old(state) == Ready && viewportHeight >= bodyHeight;
      var refused := false;
      while state == Ready && viewportHeight >= bodyHeight && !refused
        invariant state == old(state) || (permitted && near && state == Loading)
        invariant refused ==> permitted && !near && state == Ready
        decreases if refused || state != Ready then 0 else 1
      {
        Load(viewportHeight, containerTop, measuredHeight);
        refused := state == Ready;
      }
    }

    /** `success`: add each item of an array, in order, then set the state to
        `ready` whatever was given. */
    method Success(arg: Option<seq<Item>>)
      requires Valid()
      modifies colHeightArr, this`styleQueue, this`positions, this`containerHeight,
               this`state, this`children, this`readyItems
      ensures Valid()
      ensures state == Next(old(state), Event.Success)
      ensures var items := if arg.Some? then arg.value else [];
              children == AppendAll(old(children), items) &&
              colHeightArr[..] == PlaceAll(old(colHeightArr[..]), items, opts).cols &&
              positions == ApplyStyles(old(positions), PlaceAll(old(colHeightArr[..]), items, opts).queue) &&
              readyItems == old(readyItems) + ItemSet(items) &&
              containerHeight == (if items == [] then old(containerHeight) else MaxHeight(colHeightArr[..]))
    {
      if arg.Some? {
        AddEach(arg.value);
      } else {
        assert ItemSet([]) == {};
        PlaceAllEmpty(colHeightArr[..], opts);
      }
      state := Ready;
    }

    /** What adding `items[..i]` one by one has done to the children, the
        columns, the positions and the `ready` marks, which were `children0`,
        `cols0`, `m0` and `r0` before. */
    ghost predicate AddedSoFar(cols0: seq<int>, children0: seq<Item>, m0: map<Item, Pos>, r0: set<Item>,
                               items: seq<Item>, i: int)
      reads this, colHeightArr
    {
      |cols0| >= 1 && 0 <= i <= |items| &&
      children == AppendAll(children0, items[..i]) &&
      colHeightArr[..] == PlaceAll(cols0, items[..i], opts).cols &&
      positions == ApplyStyles(m0, PlaceAll(cols0, items[..i], opts).queue) &&
      readyItems == r0 + ItemSet(items[..i])
    }

    /** The loop of `success`: `addItem` for each element of the array, in order. */
    method AddEach(items: seq<Item>)
      requires Valid()
      modifies colHeightArr, this`styleQueue, this`positions, this`containerHeight,
               this`state, this`children, this`readyItems
      ensures Valid()
      ensures items != [] ==> state == Ready
      ensures items == [] ==> state == old(state)
      ensures children == AppendAll(old(children), items)
      ensures colHeightArr[..] == PlaceAll(old(colHeightArr[..]), items, opts).cols
      ensures positions == ApplyStyles(old(positions), PlaceAll(old(colHeightArr[..]), items, opts).queue)
      ensures readyItems == old(readyItems) + ItemSet(items)
      ensures containerHeight == (if items == [] then old(containerHeight) else MaxHeight(colHeightArr[..]))
    {
      ghost var cols0 := colHeightArr[..];
      ghost var children0 := children;
      assert items[..0] == [] && ItemSet([]) == {};
      PlaceAllEmpty(cols0, opts);
      for i := 0 to |items|
        invariant Valid() && AddedSoFar(cols0, children0, old(positions), old(readyItems), items, i)
        invariant i > 0 ==> state == Ready && containerHeight == MaxHeight(colHeightArr[..])
        invariant i == 0 ==> state == old(state) && containerHeight == old(containerHeight)
      {
        EachItem(cols0, children0, old(positions), old(readyItems), items, i);
      }
      assert items[..|items|] == items;
    }

    /** The callback `success` hands to `$.each`: `addItem` for the item at `i`,
        after those before it. */
    method EachItem(ghost cols0: seq<int>, ghost children0: seq<Item>, ghost m0: map<Item, Pos>,
                    ghost r0: set<Item>, items: seq<Item>, i: int)
      requires Valid() && i < |items| && AddedSoFar(cols0, children0, m0, r0, items, i)
      modifies colHeightArr, this`styleQueue, this`positions, this`containerHeight,
               this`state, this`children, this`readyItems
      ensures Valid() && AddedSoFar(cols0, children0, m0, r0, items, i + 1)
      ensures state == Ready && containerHeight == MaxHeight(colHeightArr[..])
    {
      OneMoreItem(cols0, children0, m0, items, i, opts);
      AddItem(items[i]);
    }

    /** `end`: the state becomes `end` and `_load` is unbound from scrolling. */
    method End()
      modifies this`state, this`scrollBound
      ensures state == Next(old(state), Finish)
      ensures !scrollBound
    {
      state := State.End;
      scrollBound := false;
    }
  }

  /** Construction: `_init` throws when the container option is falsy, or when `maxCol`
      is truthy and below `minCol`; otherwise the waterfall starts with zeroed
      columns, its container's children, the scroll handler bound, and the state
      the first loads leave. */
  method Create(o: Options, windowWidth: int, items: seq<Item>,
                viewportHeight: int, bodyHeight: int, containerTop: int, measuredHeight: int)
    returns (r: Result<Waterfall>)
    requires Check(o) == Pass ==> Admissible(o) && Distinct(items)
    ensures r.Err? <==> !o.hasContainer || (Bounded(o) && o.minCol > o.maxCol)
    ensures r.Err? ==> r.error == (if !o.hasContainer then MissingContainer else MinColAboveMaxCol)
    ensures r.Ok? ==> fresh(r.value) && fresh(r.value.colHeightArr) && r.value.Valid() &&
                      r.value.opts == o && r.value.colCount == ColCount(o, windowWidth) &&
                      r.value.colHeightArr[..] == Zeros(r.value.colCount) &&
                      r.value.containerWidth == ContainerWidth(o, r.value.colCount) &&
                      r.value.children == items && r.value.scrollBound &&
                      r.value.state == FirstLoadRound(Ready, viewportHeight >= bodyHeight,
                                                      NearBottom(viewportHeight, o.preDistance, containerTop, measuredHeight))
  {
    var check := Check(o);
    if check.Fail? {
      return Err(check.error);
    }
    var w := new Waterfall(o, windowWidth, items, viewportHeight, bodyHeight, containerTop, measuredHeight);
    return Ok(w);
  }

  /** A client of `Create`: a constructed waterfall can take an item at once. */
  method CreateThenAdd(o: Options, windowWidth: int, item: Item) returns (r: Result<Waterfall>)
    requires Admissible(o) && Check(o) == Pass
    ensures r.Ok? && r.value.Valid() && r.value.children == [item]
    ensures r.value.colHeightArr[..] == PlaceAll(Zeros(r.value.colCount), [item], o).cols
  {
    r := Create(o, windowWidth, [], 0, 0, 0, 0);
    var w := r.value;
    w.AddItem(item);
    assert Without([], item) == [];
  }
}
